=== FILE: README.md ===
# Verified model of the content-acquisition chain of a video-to-text ingestion pipeline

The pipeline searches for recent short videos and turns each one into a text record. First it looks for captions. The code is written to prefer a manual Sinhala track, then a manual English track, then an auto-generated Sinhala or English track; with the real transcript library only the first of these lookups can succeed (see "## Findings"). If no usable captions come back, it downloads the audio and transcribes it with a speech model that translates into English. The text is then normalised: the code is written to machine-translate text detected as Sinhala into English and to keep any other text as it is; the standard `langdetect` profiles include no Sinhala, so with the real detector the translation branch probably never runs (see "## Findings"). Finally a record is appended with `source = "YouTube"` and the watch URL. The records are written once, after the loop, in candidate order.

This project models that decision chain in Dafny and proves its properties. Every collaborator is a parameter:

- the transcript provider's listing of a video's tracks, with what fetching each track yields (`Captions.Listing`);
- the downloader, modelled as the set of files that exist after a download;
- the speech model, modelled as text per audio path;
- language detection, which may fail;
- the translator.

Modules, one per component:

| file | module | models |
|---|---|---|
| wrappers.dfy | `Wrappers` | `Option`, `Result`, the exceptions (`Fault`), and `Collect`, the "append each value until something raises" loop |
| text.dfy | `Text` | Python's `str.split(sep)` and `sep.join(parts)`, with their round trips |
| captions.dfy | `Captions` | `get_captions`: the track priority policy and error containment |
| normalizer.dfy | `Normalizer` | `normalize_text` |
| audio.dfy | `Audio` | the watch URL, id recovery with `split("v=")[-1]`, the audio path and the missing-file error of `transcribe_audio` |
| pipeline.dfy | `Pipeline` | the loop body and batch loop of `run_pipeline` |

`Fault.AudioFileNotCreated(path)` stands for the `RuntimeError("Audio file not created: <path>")` that `transcribe_audio` raises (main.py:104); the rows below call it `AudioFileNotCreated`.

The code aborts the whole run when any item raises. This happens when transcription fails (the audio file is missing or the download raises) and when detection or translation fails. In that case nothing is written. Skipping a failed item would keep the other items' records; the model follows the code: `Pipeline.Batch` and `Pipeline.RunPipeline` return the first exception and no records.

## Model

| member | source | states |
|---|---|---|
| Text.Last | main.py:71 | Python's `xs[-1]` on a non-empty list: an element of the list (Text.JoinEnds and Audio.VideoIdFromUrl state which one: the piece the joined text ends with) |
| Text.Split | main.py:71 | `s.split(sep)` gives at least one piece; the pieces joined with `sep` give back `s`, no piece contains `sep`, and with two or more pieces the first cut is at the first occurrence of `sep` |
| Text.Join | main.py:140 | reference definition of `sep.join(parts)`; what it promises is stated by Text.JoinLast, Text.JoinEnds and Text.SplitJoin |
| Text.JoinLast | main.py:140 | joining can be peeled from the back: `sep.join(parts)` is `sep.join(parts[:-1])`, then `sep`, then the last part |
| Text.JoinEnds | main.py:140 | `sep.join(parts)` starts with the first part and ends with the last; with two or more parts, `sep` follows the first part and precedes the last |
| Text.SplitJoin | main.py:140 | joining with a one-character separator that occurs in no part, then splitting on it, gives back the parts |
| Wrappers.Result.ToOption | main.py:61-63 | a raised exception becomes `None` and a value `v` becomes `Some(v)`, as `except Exception: return None` does |
| Captions.FindTrack | main.py:53-59 | the lookup by kind and language list returns the first listed language that has a track of that kind, and nothing exactly when no listed language has one |
| Captions.SelectTrack | main.py:53-59 | the chosen track is the first of manual `si`, manual `en`, generated `si`, generated `en` that the video has; nothing is chosen exactly when the video has none of them |
| Captions.GetCaptions | main.py:48-63 | a failed listing yields no captions; any captions returned are the fetched segments of the first track of the priority policy that the video has |
| Captions.ManualSinhalaWins | main.py:53-54 | with a manual Sinhala track, that track is chosen and the result is its fetched segments (or nothing if the fetch fails) |
| Captions.ManualSinhalaIgnoresOtherTracks | main.py:53-54 | with a manual Sinhala track, the English and generated tracks are never consulted: listings that agree on that track give the same result |
| Captions.ManualEnglishOnlyWithoutSinhala | main.py:56-57 | the manual English track is chosen if and only if it exists and no manual Sinhala track exists |
| Captions.GeneratedOnlyWithoutManual | main.py:59 | a generated track is chosen if and only if neither manual track exists and a generated Sinhala or English track does |
| Captions.AbsentExactlyOnProviderFailure | main.py:49-63 | no captions exactly when the listing raised, no policy track exists, or fetching the chosen track raised; provider errors never propagate |
| Captions.Texts | main.py:140 | the caption texts, one per segment, in segment order |
| Captions.CaptionText | main.py:140 | the caption text of no segments is empty; otherwise it starts with the first segment's text and ends with the last segment's text (Captions.CaptionTextRecoversSegments shows that every segment is kept) |
| Captions.CaptionTextExample | main.py:140 | segments `a`, `b`, `c` are joined into exactly `"a b c"` |
| Captions.CaptionTextRecoversSegments | main.py:140 | the joined caption text keeps every segment in order: splitting it on single spaces gives back the segment texts when none contains a space |
| Captions.FindTrackOrRaise | main.py:53 | the transcript library's real lookup raises `NoTranscriptFound` naming the requested languages exactly when no listed language has a track of the requested kind; otherwise it returns the first such track in the order of the language list |
| Captions.GetCaptionsAsWritten | main.py:48-63 | `get_captions` run against the raising lookup: a failed listing yields no captions, and any captions returned are the fetched segments of the manual Sinhala track |
| Captions.AsWrittenNeedsManualSinhala | main.py:53-63 | as written against the raising lookup, a video without a manual Sinhala track never gets captions |
| Captions.AsWrittenAgreesWithManualSinhala | main.py:53-54 | when a manual Sinhala track exists, the code as written and the intended policy agree |
| Captions.EnglishOnlyVideoLosesCaptions | main.py:53-57 | a video with only a manual English track gets no captions as written, but gets that track under the intended policy |
| Normalizer.Normalize | main.py:116-122 | the result is an error exactly when detection fails or Sinhala translation fails; a result that differs from the input is always the translator's output for text detected as `si` |
| Normalizer.SinhalaIsTranslated | main.py:119-120 | text detected as `si` yields the translator's `si`→`en` output |
| Normalizer.NonSourceIsIdentity | main.py:122 | text detected as any language other than `si` is returned unchanged, and, for a fixed detector, normalising it again gives the same result |
| Normalizer.WithoutSinhalaProfileNothingIsTranslated | main.py:117-122 | with a detector that never answers `si`, every successful normalisation returns its input unchanged |
| Normalizer.TranslatorUnusedUnlessSinhala | main.py:117-122 | unless the text is detected as `si`, the translator has no influence on the result |
| Audio.WatchUrl | main.py:135 | the first `v=` in the watch URL is the one right after the watch prefix, whatever the id contains, and the URL ends with the id |
| Audio.VideoIdFromUrl | main.py:71 | `url.split("v=")[-1]` is a suffix of the URL without `v=`: the whole URL when it has no `v=`, otherwise the text right after a `v=` |
| Audio.PathJoin | main.py:72 | POSIX `os.path.join` of two parts: an absolute second part replaces the first; otherwise the result is the two parts glued directly when the first is empty or ends in `/`, and the two parts with one `/` between them otherwise |
| Audio.AudioPath | main.py:72 | the expected audio file is `audio/<id>.wav`, unless the id starts with `/`, in which case it is `<id>.wav` |
| Audio.TranscribeAudio | main.py:70-112 | succeeds if and only if the download succeeds and the expected audio file exists afterwards; then returns the speech model's text for that file; a missing file raises `AudioFileNotCreated` naming it; a download error propagates unchanged |
| Audio.SplitWatchUrl | main.py:135 | the watch URL splits on `v=` right after its prefix, and the remaining pieces are those of the id |
| Audio.IdFromWatchUrl | main.py:71 | round trip: the id recovered from the watch URL is the original id when the id does not contain `v=` |
| Audio.IdWithMarkerIsCut | main.py:71 | the proviso is needed: the id `xv=y` comes back as `y` |
| Audio.AudioPathOfWatchUrl | main.py:72 | for such an id that does not start with `/`, the expected audio file is `audio/<id>.wav` |
| Audio.MissingAudioIsHardError | main.py:103-104 | if `audio/<id>.wav` is missing after a successful download, transcription raises `AudioFileNotCreated("audio/<id>.wav")` |
| Pipeline.CaptionsOf | main.py:137 | `get_captions(video_id)` for the candidate's id: a failed listing gives no captions, and any captions are the fetched segments of the first policy track that video has |
| Pipeline.HasCaptions | main.py:139 | the truth test `if captions:` is false for both `None` and the empty list, and true otherwise |
| Pipeline.AcquireText | main.py:137-142 | non-empty captions give their space-joined text; absent or empty captions give the audio transcription of the watch URL; only the audio path can fail |
| Pipeline.ProcessOne | main.py:132-155 | a record exists exactly when text acquisition and normalisation both succeed; it carries the candidate's id, title and publication time, `source == "YouTube"`, the watch URL and the normalised text; an acquisition error, or a detection or translation error, propagates unchanged |
| Wrappers.Collect | main.py:131-158 | a front-to-back loop that appends values succeeds exactly when every step succeeds, giving one value per step in order; otherwise it gives the error of the first failing step |
| Pipeline.Batch | main.py:131-158 | the run succeeds exactly when every candidate succeeds, with one record per candidate in candidate order; otherwise it gives the exception of the first candidate that raised, and no records |
| Pipeline.RunPipeline | main.py:126-158 | the loop's outcome is exactly `Batch`: the records written once after the loop, or the first exception with nothing written |
| Pipeline.FailureAborts | main.py:131-158 | once a prefix of the candidates raises, later candidates cannot change the outcome |
| Pipeline.BatchAppend | main.py:148-155 | one more candidate appends exactly its record to a successful batch, or ends the batch with its exception |
| Pipeline.CaptionsTakePrecedence | main.py:139-140 | with non-empty captions, the text is the joined caption text and the downloader and speech model have no influence on the record |
| Pipeline.NoCaptionsFallsBackToAudio | main.py:141-142 | absent or empty captions send the item to audio transcription of its watch URL |
| Pipeline.DescriptionNotStored | main.py:134 | the description is read but has no effect on the outcome |
| Pipeline.SinhalaCaptionsAreTranslated | main.py:137-155 | a manual Sinhala caption track whose text is detected as `si` gives a record whose content is the translation |
| Pipeline.TranscribedEnglishIsKept | main.py:142-146 | without captions, a transcription `parliament convenes today` detected as `en` is stored unchanged |
| Pipeline.MissingAudioAbortsBatch | main.py:142-158 | a candidate without captions whose audio file is missing aborts the batch with `AudioFileNotCreated`, provided every earlier candidate succeeded |
| Pipeline.BatchPreservesOrder | main.py:148-155 | in a successful batch, record i belongs to candidate i: its id, its watch URL and `source == "YouTube"` |

## Findings

| source | as written | input that shows it | evidently intended | confidence | as-written member | corrected member |
|---|---|---|---|---|---|---|
| main.py:53-59 | `find_manually_created_transcript(['si'])` is used as a truth test. The transcript library raises `NoTranscriptFound` instead of returning a false value. The `except` at line 61 catches it, so the English and generated branches at lines 56-59 never run. | a video whose only track is a manual English track with text `hello`: no captions come back and the item falls back to audio | manual `si`, else manual `en`, else generated `si`/`en` | medium: rests on the transcript library's raising lookup, which is not part of this model; not executed | Captions.GetCaptionsAsWritten (witness: Captions.EnglishOnlyVideoLosesCaptions) | Captions.GetCaptions (with Captions.SelectTrack and Captions.ManualEnglishOnlyWithoutSinhala) |
| main.py:117-120 | `detect(text) == "si"` selects the translation branch. The 55 language profiles bundled with `langdetect` include no Sinhala, so `detect` never answers `si`. For text made mostly of Sinhala script, langdetect drops the Latin letters, and no bundled profile has an n-gram for the Sinhala letters that remain, so `detect` raises `LangDetectException("No features in text.")`, which nothing catches at main.py:146, and the whole batch aborts. Mixed text is detected as another language and stored untranslated. | a manual Sinhala caption track whose text is Sinhala script: detection raises instead of answering `si`, so the text is never translated | Sinhala text is translated into English | medium: rests on the bundled profiles of `langdetect`, which are not part of this model; not executed | Normalizer.WithoutSinhalaProfileNothingIsTranslated | Normalizer.SinhalaIsTranslated (with Normalizer.Normalize and Pipeline.SinhalaCaptionsAreTranslated) |

The rest of the model (`Pipeline.AcquireText`) uses the corrected resolver. In it, the track lookup returns an optional track, so the priority chain runs as written. The detector stays a parameter, so the model covers both a detector that can answer `si` and one that cannot; a detector that raises on Sinhala text aborts the batch through `Pipeline.ProcessOne`'s error clause.

## Left out

- `search_videos` and the YouTube Data API client (main.py:22, main.py:32-44): network I/O through a foreign client. The model takes the candidate list as input.
- Module-level setup (main.py:16-24): `load_dotenv`, `os.makedirs` and the clock-dependent publication window. The constant `THREE_MONTHS_AGO` is in fact a one-day window.
- The download configuration and FFmpeg post-processing (main.py:74-101): format, output template, codec, client choice and a single concurrent fragment. These are settings for a foreign tool. The downloader is abstract and is represented only by the files that exist after it runs.
- Loading the Whisper model and running it (main.py:67, main.py:106-110), including `fp16=False`: this is ML inference and floating point. The speech model is a function from an audio path to text.
- Audio.TranscribeAudio: the speech model cannot raise in the model, although a failing inference would propagate like a download error.
- Normalizer.NonSourceIsIdentity: its idempotence clause assumes a deterministic detector. `langdetect.detect` is randomised unless `DetectorFactory.seed` is fixed, and main.py (lines 11 and 117) never fixes it. So normalising the same text again could detect a different language.
- The internals of language detection and translation: these are foreign services. They are functions that may return an error.
- Reading the search items (`v["id"]["videoId"]`, `v["snippet"][...]`, main.py:132-134): a missing key would raise `KeyError`. The model takes candidates that are already parsed.
- JSON serialisation, file writing, `tqdm` and every `print` (main.py:51, 62, 143, 157-160): I/O and logging. This includes the message at main.py:143, which wrongly says transcription was skipped. A successful batch's record sequence is exactly what gets written.
- Cleanup of audio files: the code never deletes them. A file left behind by an earlier run counts as existing, which the set of existing files given by the downloader covers.

=== FILE: audio.dfy ===
/** The audio transcription fallback (`transcribe_audio`) and the watch URL it
    receives. Only the statable parts are modelled: recovering the video id
    from the URL, the expected audio path, the hard error when that file is
    missing after the download, and returning the speech model's text.
    Downloading and inference are abstract collaborators.
 */
module Audio {

  import opened Wrappers
  import Text

  /** Directory the audio files are written to. */
  const AudioDir := "audio"

  /** The watch URL up to the query key, and the key marker itself. */
  const WatchPrefix := "https://www.youtube.com/watch?"
  const IdMarker := "v="

  /** The downloader: given a video URL, the set of file paths that exist
      once the download (and transcoding) has finished, or the error it raised. */
  type Downloader = string -> Result<set<string>, Fault>

  /** The speech model in translate mode: the English text it hears in the
      audio file at the given path. */
  type SpeechModel = string -> string

  /** The canonical watch URL of a video, `https://www.youtube.com/watch?v=<id>`.
      Its first `v=` is the one in front of the id, whatever the id holds,
      and it ends with the id. */
  function WatchUrl(videoId: string): (url: string)
    ensures Text.Find(url, IdMarker) == Some(|WatchPrefix|)
    ensures |url| == |WatchPrefix| + |IdMarker| + |videoId| && url[|url| - |videoId|..] == videoId
  {
    PrefixHasNoMarker(videoId);
    Text.FindAtFirst(WatchPrefix, IdMarker, videoId);
    WatchPrefix + IdMarker + videoId
  }

  /** `url.split("v=")[-1]`: the text after the last occurrence of `v=`, or
      the whole URL when there is none. It never contains the marker and it
      is always a suffix of the URL. */
  function VideoIdFromUrl(url: string): (videoId: string)
    ensures !Text.Contains(videoId, IdMarker)
    ensures |videoId| <= |url| && url[|url| - |videoId|..] == videoId
    ensures !Text.Contains(url, IdMarker) ==> videoId == url
    ensures Text.Contains(url, IdMarker)
            ==> (|videoId| + |IdMarker| <= |url|
                 && url[|url| - |videoId| - |IdMarker|..|url| - |videoId|] == IdMarker)
  {
    var parts := Text.Split(url, IdMarker);
    Text.JoinEnds(parts, IdMarker);
    Text.Last(parts)
  }

  /** POSIX `os.path.join(a, b)` for two components: an absolute `b` replaces
      `a`; otherwise `a` is kept in front of `b`, with a `/` inserted unless
      `a` is empty or already ends in one. */
  function PathJoin(a: string, b: string): (p: string)
    ensures |b| > 0 && b[0] == '/' ==> p == b
    ensures (|b| == 0 || b[0] != '/')
            ==> (|b| <= |p| && p[|p| - |b|..] == b
                 && |a| <= |p| && p[..|a|] == a && |p| <= |a| + 1 + |b|)
    ensures (|b| == 0 || b[0] != '/') ==> (p == a + b || p == a + "/" + b)
    ensures (|b| == 0 || b[0] != '/') ==> (p == a + b <==> |a| == 0 || a[|a| - 1] == '/')
  {
    if |b| > 0 && b[0] == '/' then b
    else if |a| == 0 || a[|a| - 1] == '/' then a + b
    else a + "/" + b
  }

  /** The expected audio file of a video, `os.path.join(AUDIO_DIR, f"{id}.wav")`:
      `audio/<id>.wav`, unless the id starts with `/`, which makes it absolute. */
  function AudioPath(videoId: string): (p: string)
    ensures (|videoId| == 0 || videoId[0] != '/') ==> p == "audio/" + videoId + ".wav"
    ensures |videoId| > 0 && videoId[0] == '/' ==> p == videoId + ".wav"
  {
    assert (videoId + ".wav")[0] == if |videoId| == 0 then '.' else videoId[0];
    PathJoin(AudioDir, videoId + ".wav")
  }

  /** `transcribe_audio(video_url)`: download, then fail hard if the expected
      audio file does not exist, else return the speech model's text for it.
      A download error propagates as well. */
  function TranscribeAudio(url: string, download: Downloader, speech: SpeechModel): (r: Result<string, Fault>)
    ensures r.Success? <==> download(url).Success? && AudioPath(VideoIdFromUrl(url)) in download(url).value
    ensures r.Success? ==> r.value == speech(AudioPath(VideoIdFromUrl(url)))
    ensures download(url).Success? && AudioPath(VideoIdFromUrl(url)) !in download(url).value
            ==> r == Failure(AudioFileNotCreated(AudioPath(VideoIdFromUrl(url))))
    ensures download(url).Failure? ==> r == Failure(download(url).error)
  {
    var audioPath := AudioPath(VideoIdFromUrl(url));
    match download(url)
    case Failure(e) => Failure(e)
    case Success(files) =>
      if audioPath !in files then Failure(AudioFileNotCreated(audioPath))
      else Success(speech(audioPath))
  }

  /** The watch prefix contains no `v`, so no `v=` of the watch URL starts
      inside it. */
  lemma PrefixHasNoMarker(videoId: string)
    ensures forall k :: 0 <= k < |WatchPrefix| ==> !Text.OccursAt(WatchPrefix + IdMarker + videoId, IdMarker, k)
  {
    var url := WatchPrefix + IdMarker + videoId;
    forall k | 0 <= k < |WatchPrefix|
      ensures !Text.OccursAt(url, IdMarker, k)
    {
      assert url[k] == WatchPrefix[k];
      assert WatchPrefix[k] != 'v';
    }
  }

  /** The watch URL splits at the marker right after the prefix:
      `WatchUrl(id).split("v=") == [prefix] + id.split("v=")`. */
  lemma SplitWatchUrl(videoId: string)
    ensures Text.Split(WatchUrl(videoId), IdMarker) == [WatchPrefix] + Text.Split(videoId, IdMarker)
  {
    PrefixHasNoMarker(videoId);
    Text.SplitAtFirst(WatchPrefix, IdMarker, videoId);
  }

  /** Round trip: the id recovered from the watch URL is the original id,
      provided the id does not itself contain `v=`. */
  lemma IdFromWatchUrl(videoId: string)
    requires !Text.Contains(videoId, IdMarker)
    ensures VideoIdFromUrl(WatchUrl(videoId)) == videoId
  {
    SplitWatchUrl(videoId);
    Text.SplitWithoutSeparator(videoId, IdMarker);
  }

  /** Without the proviso the round trip fails: an id containing `v=` is cut
      at its own marker. */
  lemma IdWithMarkerIsCut()
    ensures VideoIdFromUrl(WatchUrl("xv=y")) == "y"
  {
    SplitWatchUrl("xv=y");
    SplitMarkedId();
    assert Text.Split(WatchUrl("xv=y"), IdMarker) == [WatchPrefix, "x", "y"];
  }

  /** `"xv=y".split("v=") == ["x", "y"]`. */
  lemma SplitMarkedId()
    ensures Text.Split("xv=y", IdMarker) == ["x", "y"]
  {
    var a, b := "x", "y";
    assert a + IdMarker + b == "xv=y";
    assert (a + IdMarker + b)[0] == 'x';
    Text.SplitAtFirst(a, IdMarker, b);
    assert b[0] != 'v' && |b| == 1;
    assert !Text.Contains(b, IdMarker);
    Text.SplitWithoutSeparator(b, IdMarker);
  }

  /** For ids from the watch URL that do not start with `/`, the audio file is
      `audio/<id>.wav`. */
  lemma AudioPathOfWatchUrl(videoId: string)
    requires !Text.Contains(videoId, IdMarker)
    requires |videoId| == 0 || videoId[0] != '/'
    ensures AudioPath(VideoIdFromUrl(WatchUrl(videoId))) == "audio/" + videoId + ".wav"
  {
    IdFromWatchUrl(videoId);
  }

  /** A video whose audio file is missing after the download raises the hard
      `AudioFileNotCreated` error naming that file; the speech model is not used. */
  lemma MissingAudioIsHardError(videoId: string, download: Downloader, speech: SpeechModel)
    requires !Text.Contains(videoId, IdMarker)
    requires |videoId| == 0 || videoId[0] != '/'
    requires download(WatchUrl(videoId)).Success?
    requires "audio/" + videoId + ".wav" !in download(WatchUrl(videoId)).value
    ensures TranscribeAudio(WatchUrl(videoId), download, speech)
            == Failure(AudioFileNotCreated("audio/" + videoId + ".wav"))
  {
    AudioPathOfWatchUrl(videoId);
  }
}

=== FILE: captions.dfy ===
/** The caption resolver (`get_captions`): pick one caption track of a video
    by a fixed priority policy, fetch its segments, and turn every provider
    error into an absent result.

    The transcript provider is abstract. A `Listing` records which tracks the
    provider lists for a video and what fetching each of them yields; the
    provider's listing call itself may fail, which the resolver receives as a
    `Failure`.
 */
module Captions {

  import opened Wrappers
  import Text

  /** One timed caption segment; only its text is used downstream. */
  datatype Segment = Segment(text: string)

  /** What fetching a track yields: its segments in temporal order, or the
      error the fetch raised. */
  type Fetched = Result<seq<Segment>, Fault>

  /** The transcript list of one video: manually created and automatically
      generated tracks, each keyed by its language code. */
  datatype Listing = Listing(manual: map<string, Fetched>, generated: map<string, Fetched>)

  datatype Kind = Manual | Generated

  /** A track named by its kind and language code. */
  datatype TrackRef = TrackRef(kind: Kind, lang: string)

  const Sinhala := "si"
  const English := "en"

  /** The resolver's preference order, first match wins: a manual Sinhala
      track, a manual English track, then a generated track in Sinhala or
      English (in that order, as the generated lookup scans its language list). */
  const Policy: seq<TrackRef> := [
    TrackRef(Manual, Sinhala), TrackRef(Manual, English),
    TrackRef(Generated, Sinhala), TrackRef(Generated, English)]

  predicate Present(l: Listing, t: TrackRef) {
    match t.kind
    case Manual => t.lang in l.manual
    case Generated => t.lang in l.generated
  }

  function FetchTrack(l: Listing, t: TrackRef): Fetched
    requires Present(l, t)
  {
    match t.kind
    case Manual => l.manual[t.lang]
    case Generated => l.generated[t.lang]
  }

  /** `t` is the first track of `order` that the listing has. */
  predicate FirstPresentIn(order: seq<TrackRef>, l: Listing, t: TrackRef) {
    exists j :: 0 <= j < |order| && order[j] == t && Present(l, t)
      && forall i :: 0 <= i < j ==> !Present(l, order[i])
  }

  /** The tracks a lookup of kind `kind` tries, in the order of `langs`. */
  function LookupOrder(kind: Kind, langs: seq<string>): seq<TrackRef> {
    seq(|langs|, j requires 0 <= j < |langs| => TrackRef(kind, langs[j]))
  }

  /** The provider's lookup by kind and language list: the first language of
      `langs` that has a track of kind `kind`, or nothing. This is the lookup
      as the resolver's code uses it, returning an optional track. */
  function FindTrack(l: Listing, kind: Kind, langs: seq<string>): (r: Option<TrackRef>)
    ensures r.None? <==> forall j :: 0 <= j < |langs| ==> !Present(l, TrackRef(kind, langs[j]))
    ensures r.Some? ==> r.value.kind == kind && r.value.lang in langs && Present(l, r.value)
    ensures r.Some? ==> FirstPresentIn(LookupOrder(kind, langs), l, r.value)
    decreases |langs|
  {
    if |langs| == 0 then None
    else if Present(l, TrackRef(kind, langs[0])) then
      var r := Some(TrackRef(kind, langs[0]));
      assert LookupOrder(kind, langs)[0] == r.value;
      r
    else
      var r := FindTrack(l, kind, langs[1..]);
      if r.Some? then
        var order := LookupOrder(kind, langs);
        var tail := LookupOrder(kind, langs[1..]);
        var j :| 0 <= j < |tail| && tail[j] == r.value && Present(l, r.value)
          && forall i :: 0 <= i < j ==> !Present(l, tail[i]);
        assert order[j + 1] == r.value;
        assert forall i :: 0 < i <= j ==> order[i] == tail[i - 1];
        r
      else
        r
  }

  /** Track selection of `get_captions`: manual Sinhala, else manual English,
      else the generated lookup over Sinhala then English. The chosen track is
      exactly the first track of `Policy` that the listing has. */
  function SelectTrack(l: Listing): (r: Option<TrackRef>)
    ensures r.None? <==> forall j :: 0 <= j < |Policy| ==> !Present(l, Policy[j])
    ensures r.Some? ==> FirstPresentIn(Policy, l, r.value)
  {
    var si := FindTrack(l, Manual, [Sinhala]);
    var en := FindTrack(l, Manual, [English]);
    var gen := FindTrack(l, Generated, [Sinhala, English]);
    if si.Some? then
      assert Policy[0] == si.value;
      si
    else if en.Some? then
      assert Policy[1] == en.value && !Present(l, Policy[0]);
      en
    else
      assert !Present(l, Policy[0]) && !Present(l, Policy[1]);
      if gen.Some? then
        assert gen.value == Policy[2] || gen.value == Policy[3];
        assert !Present(l, Policy[2]) ==> gen.value == Policy[3];
        gen
      else
        gen
  }

  /** `get_captions(video_id)` given what listing the transcripts yielded:
      the fetched segments of the selected track; a listing error, no
      matching track or a fetch error all yield None. Nothing propagates. */
  function GetCaptions(listed: Result<Listing, Fault>): (r: Option<seq<Segment>>)
    ensures listed.Failure? ==> r.None?
    ensures r.Some? ==> exists t :: FirstPresentIn(Policy, listed.value, t) && Present(listed.value, t)
                                    && FetchTrack(listed.value, t) == Success(r.value)
  {
    match listed
    case Failure(_) => None
    case Success(l) =>
      match SelectTrack(l)
      case None => None
      case Some(t) =>
        FetchTrack(l, t).ToOption()
  }

  /** The captions' texts in segment order. */
  function Texts(segs: seq<Segment>): (texts: seq<string>)
    ensures |texts| == |segs|
    ensures forall i :: 0 <= i < |segs| ==> texts[i] == segs[i].text
  {
    seq(|segs|, i requires 0 <= i < |segs| => segs[i].text)
  }

  /** The item text built from captions: `" ".join(c["text"] for c in captions)`.
      It starts with the first segment's text and ends with the last's. */
  function CaptionText(segs: seq<Segment>): (text: string)
    ensures |segs| == 0 ==> text == ""
    ensures |segs| >= 1 ==> |segs[0].text| <= |text| && text[..|segs[0].text|] == segs[0].text
    ensures |segs| >= 1 ==> (|segs[|segs| - 1].text| <= |text|
                             && text[|text| - |segs[|segs| - 1].text|..] == segs[|segs| - 1].text)
  {
    var texts := Texts(segs);
    if |texts| == 0 then ""
    else
      Text.JoinEnds(texts, " ");
      Text.Join(texts, " ")
  }

  // ---------------------------------------------------------------------
  // Priority policy

  /** A manual Sinhala track, when listed, is the one fetched. */
  lemma ManualSinhalaWins(l: Listing)
    requires Sinhala in l.manual
    ensures SelectTrack(l) == Some(TrackRef(Manual, Sinhala))
    ensures GetCaptions(Success(l)) == l.manual[Sinhala].ToOption()
  {
  }

  /** With a manual Sinhala track listed, the English and generated tracks are
      never consulted: listings that agree on that track give the same result. */
  lemma ManualSinhalaIgnoresOtherTracks(l1: Listing, l2: Listing)
    requires Sinhala in l1.manual && Sinhala in l2.manual
    requires l1.manual[Sinhala] == l2.manual[Sinhala]
    ensures GetCaptions(Success(l1)) == GetCaptions(Success(l2))
  {
  }

  /** The manual English track is chosen exactly when it is listed and no
      manual Sinhala track is. */
  lemma ManualEnglishOnlyWithoutSinhala(l: Listing)
    ensures SelectTrack(l) == Some(TrackRef(Manual, English))
        <==> Sinhala !in l.manual && English in l.manual
  {
  }

  /** A generated track is chosen exactly when neither manual track is
      listed and a generated Sinhala or English track is. */
  lemma GeneratedOnlyWithoutManual(l: Listing)
    ensures (SelectTrack(l).Some? && SelectTrack(l).value.kind == Generated)
        <==> (Sinhala !in l.manual && English !in l.manual
              && (Sinhala in l.generated || English in l.generated))
  {
  }

  /** Error containment: the resolver yields no captions exactly when the
      listing failed, no policy track is listed, or fetching the chosen track
      failed; otherwise it yields that track's segments. */
  lemma AbsentExactlyOnProviderFailure(listed: Result<Listing, Fault>)
    ensures GetCaptions(listed).None?
        <==> (listed.Failure?
              || (forall j :: 0 <= j < |Policy| ==> !Present(listed.value, Policy[j]))
              || (SelectTrack(listed.value).Some?
                  && FetchTrack(listed.value, SelectTrack(listed.value).value).Failure?))
  {
  }

  // ---------------------------------------------------------------------
  // Caption text

  /** `[{text:"a"},{text:"b"},{text:"c"}]` becomes `"a b c"`. */
  lemma CaptionTextExample()
    ensures CaptionText([Segment("a"), Segment("b"), Segment("c")]) == "a b c"
  {
  }

  /** The joined caption text keeps every segment, in order: splitting it on
      single spaces gives back the segment texts when none contains a space. */
  lemma CaptionTextRecoversSegments(segs: seq<Segment>)
    requires |segs| >= 1
    requires forall i :: 0 <= i < |segs| ==> !Text.Contains(segs[i].text, " ")
    ensures Text.Split(CaptionText(segs), " ") == Texts(segs)
  {
    Text.SplitJoin(Texts(segs), " ");
  }

  // ---------------------------------------------------------------------
  // The code as written against the real transcript library

  /** The transcript library's lookup as it actually behaves: it raises
      `NoTranscriptFound` instead of returning nothing. */
  function FindTrackOrRaise(l: Listing, kind: Kind, langs: seq<string>): (r: Result<TrackRef, Fault>)
    ensures r.Failure? <==> forall j :: 0 <= j < |langs| ==> !Present(l, TrackRef(kind, langs[j]))
    ensures r.Failure? ==> r.error == NoTranscriptFound(langs)
    ensures r.Success? ==> FirstPresentIn(LookupOrder(kind, langs), l, r.value)
  {
    match FindTrack(l, kind, langs)
    case None => Failure(NoTranscriptFound(langs))
    case Some(t) => Success(t)
  }

  /** `get_captions` as written, run against the raising lookup: the first
      lookup (manual Sinhala) raises whenever that track is missing, the
      exception is caught, and the English and generated branches are never
      reached. A found track object is always truthy. */
  function GetCaptionsAsWritten(listed: Result<Listing, Fault>): (r: Option<seq<Segment>>)
    ensures listed.Failure? ==> r.None?
    ensures r.Some? ==> Sinhala in listed.value.manual && listed.value.manual[Sinhala] == Success(r.value)
  {
    match listed
    case Failure(_) => None
    case Success(l) =>
      match FindTrackOrRaise(l, Manual, [Sinhala])
      case Failure(_) => None
      case Success(t) => FetchTrack(l, t).ToOption()
  }

  /** As written, a video without a manual Sinhala track never gets captions. */
  lemma AsWrittenNeedsManualSinhala(l: Listing)
    requires Sinhala !in l.manual
    ensures GetCaptionsAsWritten(Success(l)) == None
  {
  }

  /** The two agree whenever a manual Sinhala track is listed. */
  lemma AsWrittenAgreesWithManualSinhala(l: Listing)
    requires Sinhala in l.manual
    ensures GetCaptionsAsWritten(Success(l)) == GetCaptions(Success(l))
  {
  }

  /** Witness of the discrepancy: a video with only a manual English track. */
  lemma EnglishOnlyVideoLosesCaptions()
    ensures var l := Listing(map[English := Success([Segment("hello")])], map[]);
            GetCaptionsAsWritten(Success(l)) == None
            && GetCaptions(Success(l)) == Some([Segment("hello")])
  {
  }
}

=== FILE: normalizer.dfy ===
/** The text normaliser (`normalize_text`): detect the language of a text and
    translate it from Sinhala to English only when it was detected as Sinhala.
    Language detection and translation are abstract collaborators; either may
    raise, and what they raise propagates to the caller.
 */
module Normalizer {

  import opened Wrappers

  /** Language identification: a language code, or an error when the text is
      too short or ambiguous. */
  type Detector = string -> Result<string, Fault>

  /** Machine translation of a text from a source to a target language code. */
  type Translator = (string, string, string) -> Result<string, Fault>

  /** The corpus's source language and the target language. */
  const SourceLanguage := "si"
  const TargetLanguage := "en"

  /** `normalize_text(text)`: the translator's output (or its error) exactly
      when the text is detected as Sinhala, the text itself for any other
      detected language, and the detector's error when detection fails. */
  function Normalize(text: string, detect: Detector, translate: Translator): (r: Result<string, Fault>)
    ensures r.Failure? <==> detect(text).Failure?
                            || (detect(text) == Success(SourceLanguage)
                                && translate(SourceLanguage, TargetLanguage, text).Failure?)
    ensures detect(text).Failure? ==> r.error == detect(text).error
    ensures r.Success? && r.value != text
            ==> detect(text) == Success(SourceLanguage)
                && r == translate(SourceLanguage, TargetLanguage, text)
  {
    match detect(text)
    case Failure(e) => Failure(e)
    case Success(lang) =>
      if lang == SourceLanguage then translate(SourceLanguage, TargetLanguage, text)
      else Success(text)
  }

  /** Text detected as Sinhala comes out as the translator's output, whatever
      that is, and never as the raw input. */
  lemma SinhalaIsTranslated(text: string, detect: Detector, translate: Translator)
    requires detect(text) == Success(SourceLanguage)
    ensures Normalize(text, detect, translate) == translate(SourceLanguage, TargetLanguage, text)
  {
  }

  /** Text detected as any other language passes through unchanged, and
      normalising it again changes nothing: normalisation is idempotent there. */
  lemma NonSourceIsIdentity(text: string, detect: Detector, translate: Translator)
    requires detect(text).Success? && detect(text).value != SourceLanguage
    ensures Normalize(text, detect, translate) == Success(text)
    ensures Normalize(Normalize(text, detect, translate).value, detect, translate)
            == Normalize(text, detect, translate)
  {
  }

  /** With a detector that never answers Sinhala, as a detector without a
      Sinhala language profile behaves, nothing is ever translated: every
      successful result is the input text itself. */
  lemma WithoutSinhalaProfileNothingIsTranslated(text: string, detect: Detector, translate: Translator)
    requires forall t :: detect(t) != Success(SourceLanguage)
    ensures Normalize(text, detect, translate).Success?
            ==> Normalize(text, detect, translate).value == text
  {
  }

  /** The translator is consulted only for Sinhala text: with any other
      detected language, swapping the translator does not change the result. */
  lemma TranslatorUnusedUnlessSinhala(text: string, detect: Detector, t1: Translator, t2: Translator)
    requires detect(text) != Success(SourceLanguage)
    ensures Normalize(text, detect, t1) == Normalize(text, detect, t2)
  {
  }
}

=== FILE: pipeline.dfy ===
/** The acquisition orchestrator and batch loop (`run_pipeline`): for each
    candidate video, build its watch URL, take the caption text when the
    resolver yields non-empty captions and the audio transcription otherwise,
    normalise the text, and append a record. Any exception raised while
    processing an item escapes the loop, so the run ends without writing
    anything; otherwise all records are written once, in candidate order.
 */
module Pipeline {

  import opened Wrappers
  import Text
  import Captions
  import Normalizer
  import Audio

  /** A search result: the video id and the snippet fields the loop reads. */
  datatype Candidate = Candidate(videoId: string, title: string, description: string, publishedAt: string)

  /** One element of the output JSON array. */
  datatype Record = Record(videoId: string, title: string, published: string,
                           source: string, url: string, contentEn: string)

  const Source := "YouTube"

  /** The collaborators the pipeline calls, all abstract. `listTranscripts`
      is the caption provider's listing of a video's tracks. */
  datatype Services = Services(
    listTranscripts: string -> Result<Captions.Listing, Fault>,
    download: Audio.Downloader,
    speech: Audio.SpeechModel,
    detect: Normalizer.Detector,
    translate: Normalizer.Translator)

  /** The captions the resolver yields for a candidate. */
  function CaptionsOf(c: Candidate, env: Services): (caps: Option<seq<Captions.Segment>>)
    ensures env.listTranscripts(c.videoId).Failure? ==> caps == None
    ensures caps.Some? ==> exists t :: Captions.FirstPresentIn(Captions.Policy, env.listTranscripts(c.videoId).value, t)
                                       && Captions.Present(env.listTranscripts(c.videoId).value, t)
                                       && Captions.FetchTrack(env.listTranscripts(c.videoId).value, t) == Success(caps.value)
  {
    Captions.GetCaptions(env.listTranscripts(c.videoId))
  }

  /** Python truthiness of the resolver's result, `if captions:`: both `None`
      and the empty list are false. */
  function HasCaptions(caps: Option<seq<Captions.Segment>>): (truthy: bool)
    ensures truthy <==> caps != None && caps != Some([])
  {
    caps.Some? && |caps.value| > 0
  }

  /** The item text: the joined caption text when captions are non-empty,
      else the audio transcription of the watch URL. Only the audio path can
      raise. */
  function AcquireText(c: Candidate, env: Services): (r: Result<string, Fault>)
    ensures HasCaptions(CaptionsOf(c, env))
            ==> r == Success(Captions.CaptionText(CaptionsOf(c, env).value))
    ensures !HasCaptions(CaptionsOf(c, env))
            ==> r == Audio.TranscribeAudio(Audio.WatchUrl(c.videoId), env.download, env.speech)
    ensures r.Failure? ==> !HasCaptions(CaptionsOf(c, env))
  {
    var url := Audio.WatchUrl(c.videoId);
    var captions := CaptionsOf(c, env);
    if HasCaptions(captions) then Success(Captions.CaptionText(captions.value))
    else Audio.TranscribeAudio(url, env.download, env.speech)
  }

  /** The loop body for one candidate: the record built from its normalised
      text, or the first exception raised on the way. The record carries the
      candidate's id, title and publication time, the fixed source and the
      watch URL; the description is read but not stored. */
  function ProcessOne(c: Candidate, env: Services): (r: Result<Record, Fault>)
    ensures r.Success? <==> (AcquireText(c, env).Success?
            && Normalizer.Normalize(AcquireText(c, env).value, env.detect, env.translate).Success?)
    ensures r.Success? ==> r.value.videoId == c.videoId && r.value.title == c.title
                           && r.value.published == c.publishedAt && r.value.source == Source
                           && r.value.url == Audio.WatchUrl(c.videoId)
    ensures r.Success? ==> (r.value.contentEn
            == Normalizer.Normalize(AcquireText(c, env).value, env.detect, env.translate).value)
    ensures AcquireText(c, env).Failure? ==> r == Failure(AcquireText(c, env).error)
    ensures AcquireText(c, env).Success?
            && Normalizer.Normalize(AcquireText(c, env).value, env.detect, env.translate).Failure?
            ==> r == Failure(Normalizer.Normalize(AcquireText(c, env).value, env.detect, env.translate).error)
  {
    var url := Audio.WatchUrl(c.videoId);
    match AcquireText(c, env)
    case Failure(e) => Failure(e)
    case Success(text) =>
      match Normalizer.Normalize(text, env.detect, env.translate)
      case Failure(e) => Failure(e)
      case Success(textEn) =>
        Success(Record(c.videoId, c.title, c.publishedAt, Source, url, textEn))
  }

  /** `ProcessOne` succeeds on every candidate. */
  predicate AllSucceed(cands: seq<Candidate>, env: Services) {
    forall i :: 0 <= i < |cands| ==> ProcessOne(cands[i], env).Success?
  }

  /** The item outcomes of `cands`, in order. */
  function Outcomes(cands: seq<Candidate>, env: Services): (outs: seq<Result<Record, Fault>>)
    ensures |outs| == |cands|
    ensures forall i :: 0 <= i < |cands| ==> outs[i] == ProcessOne(cands[i], env)
  {
    seq(|cands|, i requires 0 <= i < |cands| => ProcessOne(cands[i], env))
  }

  /** The outcome of the whole loop over `cands`, processed front to back: the
      records in candidate order, one per candidate, when every item
      succeeds; otherwise the exception of the first item that raised. */
  function Batch(cands: seq<Candidate>, env: Services): (r: Result<seq<Record>, Fault>)
    ensures r.Success? <==> AllSucceed(cands, env)
    ensures r.Success? ==> |r.value| == |cands|
    ensures r.Success? ==> forall i :: 0 <= i < |cands| ==> ProcessOne(cands[i], env) == Success(r.value[i])
    ensures r.Failure? ==> exists i :: 0 <= i < |cands| && ProcessOne(cands[i], env) == Failure(r.error)
                                       && forall j :: 0 <= j < i ==> ProcessOne(cands[j], env).Success?
  {
    Collect(Outcomes(cands, env))
  }

  /** `run_pipeline` over the search results: the loop appends one record per
      candidate; an exception ends the run before anything is written. The
      outcome's success value is exactly the array written to the output file. */
  method RunPipeline(cands: seq<Candidate>, env: Services) returns (outcome: Result<seq<Record>, Fault>)
    ensures outcome == Batch(cands, env)
  {
    var results: seq<Record> := [];
    var i := 0;
    while i < |cands|
      invariant 0 <= i <= |cands|
      invariant Batch(cands[..i], env) == Success(results)
    {
      var item := ProcessOne(cands[i], env);
      LoopStep(cands, env, i, results);
      if item.Failure? {
        return Failure(item.error);
      }
      results := results + [item.value];
      i := i + 1;
    }
    assert cands[..i] == cands;
    outcome := Success(results);
  }

  /** One iteration of the loop: a raising candidate decides the whole batch;
      otherwise its record extends the prefix's records. */
  lemma LoopStep(cands: seq<Candidate>, env: Services, i: nat, results: seq<Record>)
    requires i < |cands| && Batch(cands[..i], env) == Success(results)
    ensures ProcessOne(cands[i], env).Failure?
            ==> Batch(cands, env) == Failure(ProcessOne(cands[i], env).error)
    ensures ProcessOne(cands[i], env).Success?
            ==> Batch(cands[..i + 1], env) == Success(results + [ProcessOne(cands[i], env).value])
  {
    var outs := Outcomes(cands, env);
    assert outs[..i] == Outcomes(cands[..i], env);
    assert outs[..i + 1] == Outcomes(cands[..i + 1], env);
    CollectStep(outs, i, results);
  }

  /** Once a prefix of the candidates fails, the whole batch fails the same way. */
  lemma FailureAborts(cands: seq<Candidate>, env: Services, n: nat)
    requires n <= |cands| && Batch(cands[..n], env).Failure?
    ensures Batch(cands, env) == Batch(cands[..n], env)
  {
    var outs := Outcomes(cands, env);
    assert outs[..n] == Outcomes(cands[..n], env);
    CollectFailedPrefix(outs, n);
  }

  // ---------------------------------------------------------------------
  // Properties of one item

  /** With non-empty captions, the record's content is the normalised caption
      text, segments joined by single spaces; the audio collaborators are not used. */
  lemma CaptionsTakePrecedence(c: Candidate, env: Services, download: Audio.Downloader, speech: Audio.SpeechModel)
    requires HasCaptions(CaptionsOf(c, env))
    ensures AcquireText(c, env) == Success(Captions.CaptionText(CaptionsOf(c, env).value))
    ensures ProcessOne(c, env) == ProcessOne(c, env.(download := download, speech := speech))
  {
  }

  /** Absent or empty captions send the item to audio transcription. */
  lemma NoCaptionsFallsBackToAudio(c: Candidate, env: Services)
    requires CaptionsOf(c, env).None? || CaptionsOf(c, env) == Some([])
    ensures AcquireText(c, env) == Audio.TranscribeAudio(Audio.WatchUrl(c.videoId), env.download, env.speech)
  {
  }

  /** The description is read but not stored: it has no effect on the outcome. */
  lemma DescriptionNotStored(c: Candidate, description: string, env: Services)
    ensures ProcessOne(c.(description := description), env) == ProcessOne(c, env)
  {
  }

  /** A manual Sinhala caption track whose text is detected as Sinhala gives a
      record whose content is the translation, not the raw caption text. */
  lemma SinhalaCaptionsAreTranslated(c: Candidate, env: Services, l: Captions.Listing, segs: seq<Captions.Segment>, english: string)
    requires env.listTranscripts(c.videoId) == Success(l)
    requires Captions.Sinhala in l.manual && l.manual[Captions.Sinhala] == Success(segs) && |segs| > 0
    requires env.detect(Captions.CaptionText(segs)) == Success(Normalizer.SourceLanguage)
    requires env.translate(Normalizer.SourceLanguage, Normalizer.TargetLanguage, Captions.CaptionText(segs)) == Success(english)
    ensures ProcessOne(c, env)
            == Success(Record(c.videoId, c.title, c.publishedAt, Source, Audio.WatchUrl(c.videoId), english))
  {
  }

  /** Without captions, a successful transcription detected as English is
      stored unchanged. */
  lemma TranscribedEnglishIsKept(c: Candidate, env: Services, files: set<string>)
    requires !HasCaptions(CaptionsOf(c, env))
    requires !Text.Contains(c.videoId, Audio.IdMarker)
    requires |c.videoId| == 0 || c.videoId[0] != '/'
    requires env.download(Audio.WatchUrl(c.videoId)) == Success(files)
    requires "audio/" + c.videoId + ".wav" in files
    requires env.speech("audio/" + c.videoId + ".wav") == "parliament convenes today"
    requires env.detect("parliament convenes today") == Success("en")
    ensures ProcessOne(c, env).Success?
    ensures ProcessOne(c, env).value.contentEn == "parliament convenes today"
  {
    Audio.AudioPathOfWatchUrl(c.videoId);
  }

  // ---------------------------------------------------------------------
  // Properties of the batch

  /** A candidate without captions whose audio file is missing after the
      download aborts the whole batch with the hard error, once every earlier
      candidate has succeeded: no records at all are produced. */
  lemma MissingAudioAbortsBatch(cands: seq<Candidate>, env: Services, k: nat)
    requires k < |cands|
    requires forall j :: 0 <= j < k ==> ProcessOne(cands[j], env).Success?
    requires !HasCaptions(CaptionsOf(cands[k], env))
    requires !Text.Contains(cands[k].videoId, Audio.IdMarker)
    requires |cands[k].videoId| == 0 || cands[k].videoId[0] != '/'
    requires env.download(Audio.WatchUrl(cands[k].videoId)).Success?
    requires "audio/" + cands[k].videoId + ".wav" !in env.download(Audio.WatchUrl(cands[k].videoId)).value
    ensures Batch(cands, env) == Failure(AudioFileNotCreated("audio/" + cands[k].videoId + ".wav"))
  {
    var c := cands[k];
    Audio.MissingAudioIsHardError(c.videoId, env.download, env.speech);
    assert ProcessOne(c, env) == Failure(AudioFileNotCreated("audio/" + c.videoId + ".wav"));
    var r := Batch(cands, env);
    assert !AllSucceed(cands, env);
    var i :| 0 <= i < |cands| && ProcessOne(cands[i], env) == Failure(r.error)
             && forall j :: 0 <= j < i ==> ProcessOne(cands[j], env).Success?;
    assert i == k;
  }

  /** Records of a successful batch come in candidate order: the record at
      position i belongs to candidate i, whichever path produced its text. */
  lemma BatchPreservesOrder(cands: seq<Candidate>, env: Services, i: nat)
    requires Batch(cands, env).Success? && i < |cands|
    ensures Batch(cands, env).value[i].videoId == cands[i].videoId
    ensures Batch(cands, env).value[i].url == Audio.WatchUrl(cands[i].videoId)
    ensures Batch(cands, env).value[i].source == Source
  {
  }

  /** Appending a candidate to a batch extends it by that candidate's record. */
  lemma BatchAppend(cands: seq<Candidate>, c: Candidate, env: Services)
    ensures Batch(cands + [c], env)
            == match Batch(cands, env)
               case Failure(e) => Failure(e)
               case Success(rs) =>
                 match ProcessOne(c, env)
                 case Failure(e) => Failure(e)
                 case Success(rec) => Success(rs + [rec])
  {
    var outs := Outcomes(cands + [c], env);
    assert outs[..|cands|] == Outcomes(cands, env);
    assert outs[|cands|] == ProcessOne(c, env);
  }
}

=== FILE: text.dfy ===
/** Python string operations the pipeline relies on: `sep.join(parts)` and
    `s.split(sep)` for a non-empty separator, plus the lemmas that connect
    them. Strings are sequences of characters.
 */
module Text {

  import opened Wrappers

  /** `sep` occurs in `s` starting at index `i`. */
  predicate OccursAt(s: string, sep: string, i: int) {
    0 <= i && i + |sep| <= |s| && s[i..i + |sep|] == sep
  }

  /** `sep` occurs somewhere in `s` (Python's `sep in s` for non-empty `sep`). */
  predicate Contains(s: string, sep: string) {
    exists i :: 0 <= i <= |s| && OccursAt(s, sep, i)
  }

  /** The first index at or after `from` where `sep` occurs, as `str.find` does. */
  function FindFrom(s: string, sep: string, from: nat): (r: Option<nat>)
    requires |sep| > 0 && from <= |s|
    ensures r.Some? ==> from <= r.value && OccursAt(s, sep, r.value)
    ensures r.Some? ==> forall k :: from <= k < r.value ==> !OccursAt(s, sep, k)
    ensures r.None? ==> forall k :: from <= k ==> !OccursAt(s, sep, k)
    decreases |s| - from
  {
    if from + |sep| > |s| then None
    else if s[from..from + |sep|] == sep then Some(from)
    else FindFrom(s, sep, from + 1)
  }

  /** The first index where `sep` occurs in `s`. */
  function Find(s: string, sep: string): (r: Option<nat>)
    requires |sep| > 0
    ensures r.None? <==> !Contains(s, sep)
    ensures r.Some? ==> OccursAt(s, sep, r.value)
    ensures r.Some? ==> forall k :: 0 <= k < r.value ==> !OccursAt(s, sep, k)
  {
    FindFrom(s, sep, 0)
  }

  /** Python's `sep.join(parts)`. */
  function Join(parts: seq<string>, sep: string): string
    decreases |parts|
  {
    if |parts| == 0 then ""
    else if |parts| == 1 then parts[0]
    else parts[0] + sep + Join(parts[1..], sep)
  }

  /** Python's `s.split(sep)` for a non-empty separator: the string is cut at
      every occurrence of `sep`, scanning left to right without overlaps.
      The pieces glue back to `s` and none of them contains `sep`. */
  function Split(s: string, sep: string): (parts: seq<string>)
    requires |sep| > 0
    ensures |parts| >= 1
    ensures Join(parts, sep) == s
    ensures forall i :: 0 <= i < |parts| ==> !Contains(parts[i], sep)
    ensures |parts| > 1 ==> Find(s, sep) == Some(|parts[0]|)
    decreases |s|
  {
    match Find(s, sep)
    case None => [s]
    case Some(i) =>
      var head := s[..i];
      var rest := Split(s[i + |sep|..], sep);
      assert s == head + sep + s[i + |sep|..] by {
        assert s[i..i + |sep|] == sep;
      }
      NoOccurrenceInPrefix(s, sep, i);
      [head] + rest
  }

  /** The last element of a non-empty sequence, Python's `xs[-1]`. */
  function Last<T>(xs: seq<T>): (x: T)
    requires |xs| > 0
    ensures x in xs
  {
    xs[|xs| - 1]
  }

  /** Joining peels off from the back as well as from the front:
      `sep.join(parts) == sep.join(parts[:-1]) + sep + parts[-1]`. */
  lemma {:induction false} JoinLast(parts: seq<string>, sep: string)
    requires |parts| >= 2
    ensures Join(parts, sep) == Join(parts[..|parts| - 1], sep) + sep + Last(parts)
    decreases |parts|
  {
    var n := |parts|;
    if n > 2 {
      JoinLast(parts[1..], sep);
      assert parts[1..][..n - 2] == parts[..n - 1][1..];
      assert Last(parts[1..]) == Last(parts);
    }
  }

  /** `sep.join(parts)` starts with the first part and ends with the last;
      with two or more parts, a separator follows the first part and
      precedes the last. */
  lemma JoinEnds(parts: seq<string>, sep: string)
    requires |parts| >= 1
    ensures var s := Join(parts, sep);
            |parts[0]| <= |s| && s[..|parts[0]|] == parts[0]
            && |Last(parts)| <= |s| && s[|s| - |Last(parts)|..] == Last(parts)
    ensures var s := Join(parts, sep);
            |parts| >= 2 ==> |parts[0]| + |sep| + |Last(parts)| <= |s|
                             && s[|parts[0]|..|parts[0]| + |sep|] == sep
                             && s[|s| - |Last(parts)| - |sep|..|s| - |Last(parts)|] == sep
  {
    if |parts| >= 2 {
      var s, last := Join(parts, sep), Last(parts);
      var front := Join(parts[..|parts| - 1], sep);
      JoinLast(parts, sep);
      assert s == front + sep + last;
      assert s[|s| - |last|..] == last;
      assert s[|s| - |last| - |sep|..|s| - |last|] == sep;
      var rest := Join(parts[1..], sep);
      assert s == parts[0] + sep + rest;
      assert s[..|parts[0]|] == parts[0];
      assert s[|parts[0]|..|parts[0]| + |sep|] == sep;
      assert |front| >= |parts[0]| by {
        if |parts| > 2 {
          assert front == parts[0] + sep + Join(parts[..|parts| - 1][1..], sep);
        }
      }
    }
  }

  /** A prefix of `s` ending before the first occurrence of `sep` does not
      contain `sep`. */
  lemma NoOccurrenceInPrefix(s: string, sep: string, i: nat)
    requires |sep| > 0 && i <= |s|
    requires forall k :: 0 <= k < i ==> !OccursAt(s, sep, k)
    ensures !Contains(s[..i], sep)
  {
    if Contains(s[..i], sep) {
      var k :| 0 <= k <= i && OccursAt(s[..i], sep, k);
      assert k + |sep| <= i;
      assert s[..i][k..k + |sep|] == s[k..k + |sep|];
      assert OccursAt(s, sep, k);
      assert false;
    }
  }

  /** The first occurrence of `sep` in `a + sep + b` is the one right after
      `a` when none starts inside `a`. */
  lemma FindAtFirst(a: string, sep: string, b: string)
    requires |sep| > 0
    requires forall k :: 0 <= k < |a| ==> !OccursAt(a + sep + b, sep, k)
    ensures Find(a + sep + b, sep) == Some(|a|)
  {
    var s := a + sep + b;
    assert s[|a|..|a| + |sep|] == sep;
    assert OccursAt(s, sep, |a|);
    var f := Find(s, sep);
    if f.None? {
      assert false;
    } else if f.value < |a| {
      assert false;
    } else if f.value > |a| {
      assert false;
    }
  }

  /** When the first occurrence of `sep` in `a + sep + b` is the one right
      after `a`, splitting yields `a` followed by the pieces of `b`. */
  lemma SplitAtFirst(a: string, sep: string, b: string)
    requires |sep| > 0
    requires forall k :: 0 <= k < |a| ==> !OccursAt(a + sep + b, sep, k)
    ensures Split(a + sep + b, sep) == [a] + Split(b, sep)
  {
    var s := a + sep + b;
    FindAtFirst(a, sep, b);
    assert s[..|a|] == a;
    assert s[|a| + |sep|..] == b;
  }

  /** A string without `sep` splits into itself alone. */
  lemma SplitWithoutSeparator(s: string, sep: string)
    requires |sep| > 0 && !Contains(s, sep)
    ensures Split(s, sep) == [s]
  {
  }

  /** Splitting undoes joining with a one-character separator that occurs in
      none of the parts: `sep.join(parts).split(sep) == parts`. */
  lemma {:induction false} SplitJoin(parts: seq<string>, sep: string)
    requires |sep| == 1 && |parts| >= 1
    requires forall i :: 0 <= i < |parts| ==> !Contains(parts[i], sep)
    ensures Split(Join(parts, sep), sep) == parts
    decreases |parts|
  {
    if |parts| == 1 {
      SplitWithoutSeparator(parts[0], sep);
    } else {
      var a, b := parts[0], Join(parts[1..], sep);
      assert Join(parts, sep) == a + sep + b;
      forall k | 0 <= k < |a|
        ensures !OccursAt(a + sep + b, sep, k)
      {
        if OccursAt(a + sep + b, sep, k) {
          assert (a + sep + b)[k..k + 1] == a[k..k + 1];
          assert OccursAt(a, sep, k);
          assert false;
        }
      }
      SplitAtFirst(a, sep, b);
      SplitJoin(parts[1..], sep);
      assert parts == [a] + parts[1..];
    }
  }
}

=== FILE: wrappers.dfy ===
/** The outcome types of the pipeline model.
    - Option<T>: a lookup that may find nothing, such as a caption track.
    - Result<T, E>: the value of a step, or the exception the step raised.
    - Fault: the exceptions the pipeline raises itself or receives from the
      services it calls.
 */
module Wrappers {

  datatype Option<+T> = None | Some(value: T)

  datatype Result<+T, +E> = Success(value: T) | Failure(error: E) {

    /** A raised exception becomes an absent value, as `except Exception: return None` does. */
    function ToOption(): (o: Option<T>)
      ensures o.Some? <==> Success?
      ensures o.Some? ==> Success(o.value) == this
    {
      match this
      case Success(v) => Some(v)
      case Failure(_) => None
    }
  }

  /** Exceptions seen by the pipeline. `External` stands for any error raised
      inside a collaborator the model does not describe (network errors,
      disabled captions, a failing translator, undecidable language, ...). */
  datatype Fault =
    | External(reason: string)
    | NoTranscriptFound(languages: seq<string>)
    | /** `transcribe_audio`'s `RuntimeError("Audio file not created: <path>")`. */
      AudioFileNotCreated(path: string)

  /** Runs a sequence of steps front to back, as a loop that appends each
      step's value: all the values, in order, when every step succeeds;
      otherwise the error of the first step that failed. */
  function Collect<T, E>(steps: seq<Result<T, E>>): (r: Result<seq<T>, E>)
    ensures r.Success? <==> forall i :: 0 <= i < |steps| ==> steps[i].Success?
    ensures r.Success? ==> |r.value| == |steps|
                           && forall i :: 0 <= i < |steps| ==> steps[i] == Success(r.value[i])
    ensures r.Failure? ==> exists i :: 0 <= i < |steps| && steps[i] == Failure(r.error)
                                       && forall j :: 0 <= j < i ==> steps[j].Success?
    decreases |steps|
  {
    if |steps| == 0 then Success([])
    else
      var front := steps[..|steps| - 1];
      assert forall i :: 0 <= i < |front| ==> front[i] == steps[i];
      match Collect(front)
      case Failure(e) => Failure(e)
      case Success(values) =>
        match steps[|steps| - 1]
        case Failure(e) => Failure(e)
        case Success(v) => Success(values + [v])
  }

  /** One more step of the loop: a failing step decides the whole run;
      otherwise its value extends the values of the steps before it. */
  lemma CollectStep<T, E>(steps: seq<Result<T, E>>, i: nat, values: seq<T>)
    requires i < |steps| && Collect(steps[..i]) == Success(values)
    ensures steps[i].Failure? ==> Collect(steps) == Failure(steps[i].error)
    ensures steps[i].Success? ==> Collect(steps[..i + 1]) == Success(values + [steps[i].value])
  {
    var front := steps[..i + 1];
    assert front[..i] == steps[..i];
    if steps[i].Failure? {
      CollectFailedPrefix(steps, i + 1);
    }
  }

  /** Once a prefix of the steps fails, the later steps cannot change the outcome. */
  lemma {:induction false} CollectFailedPrefix<T, E>(steps: seq<Result<T, E>>, n: nat)
    requires n <= |steps| && Collect(steps[..n]).Failure?
    ensures Collect(steps) == Collect(steps[..n])
    decreases |steps|
  {
  }
}
